=== FILE: README.md ===
# Colour helpers of superset-ui-core, modelled in Dafny

This project models the colour utilities of Superset's UI core
(`superset-frontend/packages/superset-ui-core/src/color/utils.ts`) as pure
Dafny functions, and proves what they promise:

- `getContrastingColor` reads a colour written as `rgb(R, G, B)` or as 3 or 6
  hex digits, with or without a leading `#`. It then picks black (`#000`) or
  white (`#FFF`) text from the ITU-R BT.601 luma of that colour.
- `getAnalogousColors` asks a colour library for analogous colours of each
  seed and drops the first three colours the library returns, which the
  source's comment expects to be the seed or very close to it. It then
  interleaves the rows round-robin.
- `addAlpha` appends an opacity to a colour string as two upper-case hex
  digits.
- `hexToRgb` and `rgbToHex` convert between `#RGB` / `#RRGGBB` and the
  text `rgb(R, G, B)`.

Files and modules:

| file | module | contents |
|---|---|---|
| `text.dfy` | `Text` | regex character classes `\d` and `\s`; `parseInt` on digit strings; `Number.prototype.toString(radix)`; ASCII case mapping |
| `colour.dfy` | `Colour` | the red, green, blue triple both notations describe |
| `outcome.dfy` | `Outcome` | the two thrown errors (`InvalidColor`, `InvalidOpacity`); `Option` and `Result` |
| `contrast.dfy` | `Contrast` | the `rgb(...)` pattern as a datatype of readings, its matcher, the hex branch, `getContrastingColor` |
| `alpha.dfy` | `Alpha` | `Math.round`, the padded alpha byte, `addAlpha` |
| `convert.dfy` | `Convert` | `hexToRgb`, `rgbToHex` and the round trip between them |
| `analogous.dfy` | `Analogous` | the per-seed rows, the round-robin interleaving loop, `getAnalogousColors` |
| `roundtrips.dfy` | `RoundTrips` | how the converters and the contrast picker agree with each other |

Modelling choices:

- Strings are `seq<char>`.
- Luma and opacity use exact `real` arithmetic. The luma test
  `0.299 R + 0.587 G + 0.114 B > threshold` is stated in integers as
  `299 R + 587 G + 114 B > 1000 · threshold`. `Math.round(x)` is
  `floor(x + 1/2)`.
- The regular expression `^rgb\(\s*(\d+)\s*,\s*(\d+)\s*,\s*(\d+)\s*\)$` is
  modelled by the datatype `RgbText`, which records the blank runs and digit
  runs of one reading, and by `Spell`, which writes that reading out. A
  string matches the pattern exactly when it is `Spell(t)` for some `t`
  that `Fits`. The matcher `MatchRgb` is proved sound and complete against
  this definition.
- `\s` is the full ECMAScript WhiteSpace and LineTerminator set, listed
  character by character. `\d` is `0`–`9`.
- The colour library behind `getAnalogousColors` is passed in as two
  functions:
  - `analogous(seed, k)` stands for `tinycolor(seed).analogous(k)`;
  - `toHexString` stands for the printer of one library colour.

Notes on the source's behaviour:

- The interleaving loop of `getAnalogousColors` runs while the LAST row
  still has colours, and each pass takes the front colour of every row.
  On rows of equal length, which the colour library produces, this is a
  full round-robin. The model covers only that case.
- `hexToRgb` never looks at the first character of its argument. Any
  4- or 7-character string with hex digits in positions 1 onward is read,
  as long as it has no character outside the Basic Multilingual Plane (the
  source counts UTF-16 code units).
- Colours with an alpha part (`#RRGGBBAA`) are not accepted by
  `getContrastingColor`. Every string of 8 or 9 characters is rejected
  (`Contrast.RejectsEightOrNine`).

## Model

| member | source | states |
|---|---|---|
| Text.NumberToString | superset-frontend/packages/superset-ui-core/src/color/utils.ts:113-115 | `toString(radix)` writes lower-case digits below the radix, with no leading zero. It has one digit exactly when the number is below the radix. `parseInt` reads the number back. |
| Text.HexByte | superset-frontend/packages/superset-ui-core/src/color/utils.ts:48-50 | Two hex digits, in either case, read as the byte `16·high + low`, always below 256. |
| Contrast.MatchRgb | superset-frontend/packages/superset-ui-core/src/color/utils.ts:21 | When the matcher accepts a string, its reading fits the `rgb(...)` pattern and spells out exactly that string. |
| Contrast.SplitWhile | superset-frontend/packages/superset-ui-core/src/color/utils.ts:21 | Splitting off the longest run of `\s` or `\d` characters loses nothing. The run holds only such characters, and the rest does not start with one. |
| Contrast.SplitWhileUnique | superset-frontend/packages/superset-ui-core/src/color/utils.ts:21 | Any split into a maximal run and a rest is the one the splitter finds, so each greedy `\s*` or `\d+` has exactly one way to match. |
| Contrast.MatchRgbComplete | superset-frontend/packages/superset-ui-core/src/color/utils.ts:21 | Every string the pattern matches is accepted, and the matcher returns the same reading. |
| Contrast.MatchRgbDecides | superset-frontend/packages/superset-ui-core/src/color/utils.ts:21-31 | The matcher succeeds if and only if the string matches the `rgb(...)` pattern. |
| Contrast.SpellLength | superset-frontend/packages/superset-ui-core/src/color/utils.ts:21 | The pattern matches no string shorter than 10 characters (`rgb(0,0,0)`). |
| Contrast.StripHash | superset-frontend/packages/superset-ui-core/src/color/utils.ts:37-40 | Removing the `#` loses nothing: a colour that starts with `#` is `#` followed by the result, and any other colour is left as it is. |
| Contrast.Expand | superset-frontend/packages/superset-ui-core/src/color/utils.ts:41-44 | The `#FFF` shorthand becomes six digits, and digit `i` of the result is digit `i / 2` of the shorthand. |
| Contrast.Luma | superset-frontend/packages/superset-ui-core/src/color/utils.ts:53 | The luma is exactly one thousandth of `299 R + 587 G + 114 B`. It is never negative and, for components in 0..255, never above 255. |
| Contrast.ParseColor | superset-frontend/packages/superset-ui-core/src/color/utils.ts:22-51 | Parsing fails with `InvalidColor(color)` in exactly two cases: the string is longer than 7 characters and does not match the pattern; or it has at most 7 characters and is neither 3 nor 6 long after one leading `#` is removed. Components read on the hex branch are below 256. |
| Contrast.GetContrastingColor | superset-frontend/packages/superset-ui-core/src/color/utils.ts:22-54 | Fails exactly when parsing fails, with the same error. Otherwise it returns only `#000` or `#FFF`, and `#000` exactly when `299 R + 587 G + 114 B > 1000 · threshold`. |
| Contrast.ParseRgbText | superset-frontend/packages/superset-ui-core/src/color/utils.ts:26-34 | An `rgb(...)` text is read as the decimal values of its three digit runs, whatever blanks surround them. |
| Contrast.ParseSixDigits | superset-frontend/packages/superset-ui-core/src/color/utils.ts:36-50 | Six hex digits, with or without a leading `#`, are read pairwise as red, green and blue. |
| Contrast.ShortHexSameAsLong | superset-frontend/packages/superset-ui-core/src/color/utils.ts:37-44 | A 3-digit colour gets the same answer as its digit-doubled 6-digit form at every threshold. Adding or removing the `#` does not change the answer. |
| Contrast.RejectsEightOrNine | superset-frontend/packages/superset-ui-core/src/color/utils.ts:26-31 | Every 8- or 9-character string is rejected with `InvalidColor`, including every `#RRGGBBAA`. |
| Contrast.BlackAndWhite | superset-frontend/packages/superset-ui-core/src/color/utils.ts:22-54 | At the default threshold 186, `#000000` gets `#FFF` and `#FFFFFF` gets `#000`. |
| Contrast.RgbWhite | superset-frontend/packages/superset-ui-core/src/color/utils.ts:26-54 | `rgb(255, 255, 255)` gets `#000` at the default threshold. |
| Contrast.Garbage | superset-frontend/packages/superset-ui-core/src/color/utils.ts:26-31 | `not-a-color` is rejected with `InvalidColor("not-a-color")`. |
| Alpha.Round | superset-frontend/packages/superset-ui-core/src/color/utils.ts:84 | `Math.round` returns the integer nearest `x`, with halves rounded up. |
| Alpha.AlphaByte | superset-frontend/packages/superset-ui-core/src/color/utils.ts:84 | An opacity in [0, 1] gives a byte in 0..255 within half a step of `opacity · 255`. Opacity 0 gives 0 and opacity 1 gives 255. |
| Alpha.AlphaSuffix | superset-frontend/packages/superset-ui-core/src/color/utils.ts:84-86 | Upper-casing, putting a `0` in front and keeping the last two characters always gives exactly the two upper-case hex digits of the byte. |
| Alpha.AddAlpha | superset-frontend/packages/superset-ui-core/src/color/utils.ts:78-89 | Fails with `InvalidOpacity` if and only if the opacity is below 0 or above 1. Otherwise the result is the input, unchanged, followed by two upper-case hex digits whose value is `round(opacity · 255)`. |
| Alpha.AlphaEndpoints | superset-frontend/packages/superset-ui-core/src/color/utils.ts:80-88 | Opacity 0 appends `00` and opacity 1 appends `FF`. Opacity 1.5 is rejected. |
| Convert.HexComponents | superset-frontend/packages/superset-ui-core/src/color/utils.ts:91-107 | Every component `hexToRgb` reads lies in 0..255. |
| Convert.RgbString | superset-frontend/packages/superset-ui-core/src/color/utils.ts:109 | The text starts with `rgb(`, ends with `)` and has at least 12 characters. `RoundTrips.RgbStringParses` shows that it matches the `rgb(...)` pattern and reads back as the same three numbers. |
| Convert.HexToRgb | superset-frontend/packages/superset-ui-core/src/color/utils.ts:91-110 | The output always has the `rgb(...)` shape and more than 7 characters, so `getContrastingColor` sends it to the pattern branch. What it reads is fixed by `Convert.HexToRgbShortForm`, `Convert.HexToRgbFallback`, `Convert.HexToRgbOfRgbToHex` and `RoundTrips.RgbStringParses`. |
| Convert.PaddedHex | superset-frontend/packages/superset-ui-core/src/color/utils.ts:113-119 | A padded component is exactly two lower-case hex digits, high digit first, and they read back as the component. |
| Convert.RgbToHex | superset-frontend/packages/superset-ui-core/src/color/utils.ts:112-122 | For components in 0..255 the result has 7 characters: `#` then six lower-case hex digits, each pair reading back as its component. |
| Convert.HexToRgbShortForm | superset-frontend/packages/superset-ui-core/src/color/utils.ts:97-106 | A 4-character `#RGB` gives the same text as its digit-doubled 7-character form. |
| Convert.HexToRgbFallback | superset-frontend/packages/superset-ui-core/src/color/utils.ts:91-109 | Any length other than 4 or 7 gives `rgb(0, 0, 0)`, with no error. |
| Convert.HexToRgbOfRgbToHex | superset-frontend/packages/superset-ui-core/src/color/utils.ts:103-109 | `hexToRgb` reads back the components `rgbToHex` printed, and writes `rgb(r, g, b)` with the original values. |
| Convert.PaddedHexOfDigits | superset-frontend/packages/superset-ui-core/src/color/utils.ts:113-119 | Printing a byte read from two hex digits gives the same digits back, in lower case. |
| Convert.RgbToHexOfHexComponents | superset-frontend/packages/superset-ui-core/src/color/utils.ts:103-121 | `rgbToHex` of the components read from `#RRGGBB` gives back the input with its letters in lower case. |
| Convert.HexToRgbExamples | superset-frontend/packages/superset-ui-core/src/color/utils.ts:97-109 | `#abc` and `#aabbcc` both give `rgb(170, 187, 204)`. |
| Convert.RgbStringExample | superset-frontend/packages/superset-ui-core/src/color/utils.ts:109 | The components 170, 187, 204 are written as `rgb(170, 187, 204)`. |
| Convert.DecimalExamples | superset-frontend/packages/superset-ui-core/src/color/utils.ts:109 | 170, 187 and 204 are printed in decimal as written. |
| Convert.RgbToHexExamples | superset-frontend/packages/superset-ui-core/src/color/utils.ts:112-121 | Black prints as `#000000` and white as `#ffffff`. |
| Analogous.Row | superset-frontend/packages/superset-ui-core/src/color/utils.ts:60-65 | A seed's row is what the library returned for `results + 3`, minus the first three colours. A list shorter than three gives an empty row. |
| Analogous.Rows | superset-frontend/packages/superset-ui-core/src/color/utils.ts:60-65 | There is one row per seed, in seed order. |
| Analogous.Column | superset-frontend/packages/superset-ui-core/src/color/utils.ts:69-72 | One pass of the inner loop prints colour `i` of every row, in row order. |
| Analogous.RoundRobin | superset-frontend/packages/superset-ui-core/src/color/utils.ts:67-73 | After `m` full passes over `n` rows there are exactly `m · n` colours. |
| Analogous.RoundRobinSlot | superset-frontend/packages/superset-ui-core/src/color/utils.ts:67-73 | Position `i · n + j` after the passes holds colour `i` of row `j`. |
| Analogous.RoundRobinIndex | superset-frontend/packages/superset-ui-core/src/color/utils.ts:67-73 | The same placement holds for every `i` and `j` at once, and every such position is in range. |
| Analogous.Interleave | superset-frontend/packages/superset-ui-core/src/color/utils.ts:67-73 | The loop, which runs while the last row still has colours, outputs exactly the round-robin over all columns of equal-length rows. |
| Analogous.GetAnalogousColors | superset-frontend/packages/superset-ui-core/src/color/utils.ts:56-76 | When every seed's list has the requested length, the output has `results · n` colours. Position `i · n + j` is the printed colour `i` of seed `j`'s row. No seeds give an empty result. |
| Analogous.TwoSeedsInterleave | superset-frontend/packages/superset-ui-core/src/color/utils.ts:67 | Rows `[A, AA]` and `[B, BB]` come out as `A, B, AA, BB`. |
| RoundTrips.DecimalIsDigits | superset-frontend/packages/superset-ui-core/src/color/utils.ts:109 | A number printed in decimal is a non-empty run of `\d` characters. |
| RoundTrips.RgbStringParses | superset-frontend/packages/superset-ui-core/src/color/utils.ts:109 | The text `hexToRgb` writes matches the `rgb(...)` pattern, and `getContrastingColor` reads the same three numbers from it. |
| RoundTrips.HexToRgbInRange | superset-frontend/packages/superset-ui-core/src/color/utils.ts:91-110 | For any input with hex digits wherever `hexToRgb` reads them, the output of `hexToRgb` parses as a colour whose components all lie in 0..255. |
| RoundTrips.HexRoundTrip | superset-frontend/packages/superset-ui-core/src/color/utils.ts:91-122 | Going `#RRGGBB` → `hexToRgb` → parse → `rgbToHex` gives back the input with its letters in lower case. |
| RoundTrips.RgbRoundTrip | superset-frontend/packages/superset-ui-core/src/color/utils.ts:91-122 | Going components → `rgbToHex` → `hexToRgb` → parse gives back the original components. |
| RoundTrips.ContrastAgreesAcrossNotations | superset-frontend/packages/superset-ui-core/src/color/utils.ts:22-110 | A `#RRGGBB` colour and the `rgb(...)` text `hexToRgb` writes for it get the same contrasting colour at every threshold. |

## Left out

- Contrast.GetContrastingColor: requires hex digits wherever the hex branch reaches `parseInt`, i.e. when 3 or 6 characters remain after the `#`. `parseInt` skips leading white space, accepts a sign (and a `0x` prefix) and reads the longest run of hex digits that follows. It yields `NaN` when there is no such run, a partial value (`parseInt("1z", 16)` is 1), or a negative value (`parseInt("-f", 16)` is -15), so components can be negative: `-f-f-f` reads as -15, -15, -15 and gets `#FFF` at 186 without an error. A `NaN` luma makes the answer `#FFF`. None of that coercion is modelled. The same precondition sits on `Contrast.ParseColor`.
- Contrast.ParseColor: the components of an `rgb(...)` text are exact unbounded integers. `parseInt` of a digit run longer than about 15 digits rounds to the nearest double, and that rounding is not modelled.
- Contrast.GetContrastingColor: the luma is computed in exact arithmetic. The source computes it in doubles, so a colour whose luma is exactly at the threshold may compare differently there. The threshold is an exact real as well. In the source a `NaN` or `Infinity` threshold makes the comparison false for every colour, so every valid colour gets `#FFF`, and a `-Infinity` threshold gives `#000` for every valid colour. Those thresholds are not modelled.
- Contrast.GetContrastingColor: the length test counts characters, while JavaScript counts UTF-16 code units. A string containing characters outside the Basic Multilingual Plane may be routed to the other branch in the source. The same count decides the 3-or-6 test on the hex branch: a body of 3 or 6 code units that contains such a character is accepted by the source, which reads `NaN` components and returns `#FFF`, while the model rejects it. For example `#😀a` has 4 code units and a 3-unit body in the source, but 3 characters and a 2-character body in the model, which returns `InvalidColor("#😀a")`.
- Alpha.AddAlpha: the opacity is an exact real. `NaN` passes the range check in the source and is not modelled, and neither is rounding of the double product `opacity * 255`.
- Convert.HexToRgb: requires hex digits in positions 1 onward of a 4- or 7-character string. Unary `+` trims white space around the literal and turns anything else that is not a hex digit into `NaN`, so the source writes `rgb(NaN, ...)` for most such inputs. The exception is white space in position 2, 4 or 6 of a 7-character string: that pair reads as its first digit alone, so `hexToRgb("#1 2 3 ")` is `rgb(1, 2, 3)`.
- Convert.HexToRgb: lengths and positions are counted in characters, while the source's `h.length` and `h[i]` count UTF-16 code units. With characters outside the Basic Multilingual Plane the two differ: `"😀abc"` has 5 code units, so the source writes `rgb(0, 0, 0)`, while the model sees 4 characters, never examines the first, and gives `rgb(170, 187, 204)`, the same as for `#abc`.
- Convert.RgbToHex: requires components in 0..255. A component outside 0..255, or one that is not an integer, prints as something other than two hex digits in the source: a sign (`rgbToHex(-1, 0, 0)` is `#-10000`), a fraction (`0.5` prints `0.8`) or three or more digits (`256` prints `100`).
- Analogous.GetAnalogousColors: requires every seed's list to have exactly the requested `results + 3` colours, which the colour library guarantees, and takes `results` as a natural number. The source's loop checks only the last row, so unequal rows behave in one of two ways, neither of them modelled. If an earlier row is shorter than the last, the loop shifts `undefined` out of it and calling `toHexString` on it throws. If the last row is the shortest, the loop stops when that row runs dry and the remaining colours of the longer rows are dropped without an error: rows `[A, AA]` and `[B]` give `A, B`.
- The hue rotation of `tinycolor(...).analogous(...)` and `toHexString()` are not part of this model. They come from a foreign library and enter as function parameters.
- Error messages are modelled only as their kind and the offending value, not their text.

=== FILE: alpha.dfy ===
/** `addAlpha`: append an opacity, as a two-digit upper-case hex byte, to a
    colour string. */
module Alpha {
  import opened Text
  import opened Outcome

  /** `Math.round` on a non-negative number: halves round up. */
  function Round(x: real): (n: int)
    ensures n as real <= x + 0.5 < n as real + 1.0
  {
    (x + 0.5).Floor
  }

  /** The byte an opacity in the unit interval stands for. */
  function AlphaByte(opacity: real): (a: nat)
    requires 0.0 <= opacity <= 1.0
    ensures a < 256
    ensures opacity == 0.0 ==> a == 0
    ensures opacity == 1.0 ==> a == 255
    ensures (a as real - 0.5) / 255.0 <= opacity < (a as real + 0.5) / 255.0
  {
    Round(opacity * 255.0)
  }

  /** The two upper-case hex digits of a byte, high digit first. */
  function UpperHexByte(v: nat): (s: string)
    requires v < 256
  {
    [UpperDigit(v / 16), UpperDigit(v % 16)]
  }

  /** The suffix as `addAlpha` builds it: `toString(16)`, upper-cased, with a
      `0` in front, of which the last two characters are kept. It is always
      exactly the two-digit byte. */
  function AlphaSuffix(alpha: nat): (s: string)
    requires alpha < 256
    ensures s == UpperHexByte(alpha)
    ensures AllHexDigits(s) && ValueOf(s, 16) == alpha
  {
    var digits := NumberToString(alpha, 16);
    NumberToStringWidth(alpha, 16);
    CaseKeepsDigitValue(digits[0]);
    CaseKeepsDigitValue(digits[|digits| - 1]);
    var padded := "0" + UpperString(digits);
    ValueOfTwo(padded[|padded| - 2], padded[|padded| - 1], 16);
    assert padded[|padded| - 2..] == [padded[|padded| - 2], padded[|padded| - 1]];
    padded[|padded| - 2..]
  }

  /** `addAlpha(color, opacity)`: throws for an opacity outside [0, 1];
      otherwise the colour text, untouched, followed by the opacity as two
      upper-case hex digits. */
  function AddAlpha(color: string, opacity: real): (r: Result<string>)
    ensures r.Failure? <==> opacity < 0.0 || opacity > 1.0
    ensures r.Failure? ==> r.error == InvalidOpacity(opacity)
    ensures r.Success? ==>
      && |r.value| == |color| + 2
      && r.value[..|color|] == color
      && IsUpperHexDigit(r.value[|color|]) && IsUpperHexDigit(r.value[|color| + 1])
      && 16 * DigitValue(r.value[|color|]) + DigitValue(r.value[|color| + 1]) == Round(opacity * 255.0)
  {
    if opacity > 1.0 || opacity < 0.0 then Failure(InvalidOpacity(opacity))
    else
      var suffix := AlphaSuffix(AlphaByte(opacity));
      var r := color + suffix;
      assert r[..|color|] == color && r[|color|..] == suffix;
      Success(r)
  }

  /** Full transparency appends `00` and full opacity appends `FF`; an
      opacity above 1 is rejected. */
  lemma AlphaEndpoints(color: string)
    ensures AddAlpha(color, 0.0) == Success(color + "00")
    ensures AddAlpha(color, 1.0) == Success(color + "FF")
    ensures AddAlpha(color, 1.5) == Failure(InvalidOpacity(1.5))
  {
    assert UpperHexByte(0) == "00";
    assert UpperHexByte(255) == "FF";
  }
}

=== FILE: analogous.dfy ===
/** `getAnalogousColors`: for each seed colour ask the colour library for
    analogous colours, drop the first three it returns, and interleave the
    rows round-robin. The library's hue rotation (`analogous`) and its
    hex printer (`toHexString`) are parameters. */
module Analogous {

  /** How many of the library's first colours are dropped; the source's
      comment expects them to be the seed or very close to it. */
  const Skipped: nat := 3

  /** The row for one seed: `analogous(seed, results + 3)` without its first
      three colours (`slice(3)` of a shorter list is empty). */
  function Row<C>(seed: string, results: nat, analogous: (string, nat) -> seq<C>): (row: seq<C>)
    ensures var all := analogous(seed, results + Skipped);
      && |row| == (if |all| < Skipped then 0 else |all| - Skipped)
      && forall i :: 0 <= i < |row| ==> row[i] == all[i + Skipped]
  {
    var all := analogous(seed, results + Skipped);
    if |all| < Skipped then [] else all[Skipped..]
  }

  /** `colors.map(...)`: one row per seed, in seed order. */
  function Rows<C>(colors: seq<string>, results: nat, analogous: (string, nat) -> seq<C>): (rows: seq<seq<C>>)
    ensures |rows| == |colors|
    ensures forall j :: 0 <= j < |colors| ==> rows[j] == Row(colors[j], results, analogous)
  {
    seq(|colors|, j requires 0 <= j < |colors| => Row(colors[j], results, analogous))
  }

  /** Every row has exactly `width` colours. */
  predicate Uniform<C>(rows: seq<seq<C>>, width: nat) {
    forall j :: 0 <= j < |rows| ==> |rows[j]| == width
  }

  /** Colour `i` of every row, in row order, printed with `render`. */
  function Column<C>(rows: seq<seq<C>>, i: nat, render: C -> string): (col: seq<string>)
    requires forall j :: 0 <= j < |rows| ==> i < |rows[j]|
    ensures |col| == |rows|
    ensures forall j :: 0 <= j < |rows| ==> col[j] == render(rows[j][i])
  {
    seq(|rows|, j requires 0 <= j < |rows| => render(rows[j][i]))
  }

  /** The first `m` rounds of the round-robin: column 0, then column 1, and
      so on up to column `m - 1`. */
  function RoundRobin<C>(rows: seq<seq<C>>, m: nat, render: C -> string): (out: seq<string>)
    requires forall j :: 0 <= j < |rows| ==> m <= |rows[j]|
    ensures |out| == m * |rows|
    decreases m
  {
    if m == 0 then []
    else
      NextRound(m - 1, |rows|);
      RoundRobin(rows, m - 1, render) + Column(rows, m - 1, render)
  }

  /** One more round of `n` slots. */
  lemma NextRound(a: nat, n: nat)
    ensures (a + 1) * n == a * n + n
  {
  }

  /** Earlier rounds end earlier. */
  lemma {:induction false} RoundsGrow(a: nat, b: nat, n: nat)
    requires a <= b
    ensures a * n <= b * n
    decreases b - a
  {
    if a < b {
      RoundsGrow(a, b - 1, n);
      NextRound(b - 1, n);
    }
  }

  /** Slot `j` of round `i` lies inside the first `i + 1` rounds. */
  lemma SlotPosition(i: nat, j: nat, n: nat)
    requires j < n
    ensures i * n + j < (i + 1) * n
  {
    NextRound(i, n);
  }

  /** Position `i * n + j` of the round-robin over `n` rows holds colour `i`
      of row `j`. */
  lemma {:induction false} RoundRobinSlot<C>(rows: seq<seq<C>>, m: nat, render: C -> string, i: nat, j: nat)
    requires forall k :: 0 <= k < |rows| ==> m <= |rows[k]|
    requires i < m && j < |rows|
    ensures i * |rows| + j < |RoundRobin(rows, m, render)|
    ensures RoundRobin(rows, m, render)[i * |rows| + j] == render(rows[j][i])
    decreases m
  {
    var n := |rows|;
    var front := RoundRobin(rows, m - 1, render);
    var col := Column(rows, m - 1, render);
    assert RoundRobin(rows, m, render) == front + col;
    SlotPosition(i, j, n);
    RoundsGrow(i + 1, m, n);
    if i < m - 1 {
      RoundsGrow(i + 1, m - 1, n);
      RoundRobinSlot(rows, m - 1, render, i, j);
    }
  }

  /** The whole round-robin, slot by slot. */
  lemma RoundRobinIndex<C>(rows: seq<seq<C>>, m: nat, render: C -> string)
    requires forall k :: 0 <= k < |rows| ==> m <= |rows[k]|
    ensures forall i, j :: 0 <= i < m && 0 <= j < |rows| ==>
      var p := i * |rows| + j;
      p < |RoundRobin(rows, m, render)| && RoundRobin(rows, m, render)[p] == render(rows[j][i])
  {
    forall i, j | 0 <= i < m && 0 <= j < |rows|
      ensures i * |rows| + j < |RoundRobin(rows, m, render)|
      ensures RoundRobin(rows, m, render)[i * |rows| + j] == render(rows[j][i])
    {
      RoundRobinSlot(rows, m, render, i, j);
    }
  }

  /** The loop of `getAnalogousColors` on rows of equal `width`: while the
      last row still has colours, take the front colour of every row, in
      row order, and print it. */
  method Interleave<C>(rows: seq<seq<C>>, ghost width: nat, render: C -> string)
    returns (out: seq<string>)
    requires Uniform(rows, width)
    ensures out == RoundRobin(rows, width, render)
  {
    var pending := rows;
    out := [];
    ghost var round: nat := 0;
    while |pending| > 0 && |pending[|pending| - 1]| > 0
      invariant round <= width
      invariant |pending| == |rows|
      invariant forall j :: 0 <= j < |rows| ==> pending[j] == rows[j][round..]
      invariant out == RoundRobin(rows, round, render)
      decreases width - round
    {
      var j := 0;
      while j < |pending|
        invariant 0 <= j <= |pending| == |rows|
        invariant forall k :: 0 <= k < j ==> pending[k] == rows[k][round + 1..]
        invariant forall k :: j <= k < |rows| ==> pending[k] == rows[k][round..]
        invariant out == RoundRobin(rows, round, render) + Column(rows, round, render)[..j]
      {
        var color := pending[j][0];
        assert color == rows[j][round];
        assert pending[j][1..] == rows[j][round + 1..];
        pending := pending[j := pending[j][1..]];
        out := out + [render(color)];
        assert Column(rows, round, render)[..j + 1]
          == Column(rows, round, render)[..j] + [render(color)];
        j := j + 1;
      }
      assert Column(rows, round, render)[..j] == Column(rows, round, render);
      round := round + 1;
    }
    if |rows| > 0 {
      assert pending[|rows| - 1] == rows[|rows| - 1][round..];
      assert round == width;
    } else {
      assert |RoundRobin(rows, width, render)| == 0;
    }
  }

  /** `getAnalogousColors(colors, results)`. The library promises that
      `analogous(seed, k)` has `k` colours, so every row has `results`:
      the output has `results` colours per seed, and position `i * n + j`
      holds colour `i` of seed `j`'s row. */
  method GetAnalogousColors<C>(
    colors: seq<string>, results: nat,
    analogous: (string, nat) -> seq<C>, toHexString: C -> string)
    returns (generated: seq<string>)
    requires forall j :: 0 <= j < |colors| ==> |analogous(colors[j], results + Skipped)| == results + Skipped
    ensures |generated| == results * |colors|
    ensures colors == [] ==> generated == []
    ensures forall i, j :: 0 <= i < results && 0 <= j < |colors| ==>
      var p := i * |colors| + j;
      p < |generated| && generated[p] == toHexString(Rows(colors, results, analogous)[j][i])
  {
    var rows := Rows(colors, results, analogous);
    generated := Interleave(rows, results, toHexString);
    var n := |rows|;
    assert n == |colors|;
    forall i, j | 0 <= i < results && 0 <= j < n
      ensures i * n + j < |generated| && generated[i * n + j] == toHexString(rows[j][i])
    {
      RoundRobinSlot(rows, results, toHexString, i, j);
    }
  }

  /** Two seeds with two colours each come out as first-of-first,
      first-of-second, second-of-first, second-of-second. */
  lemma TwoSeedsInterleave<C>(a0: C, a1: C, b0: C, b1: C, render: C -> string)
    ensures RoundRobin([[a0, a1], [b0, b1]], 2, render)
      == [render(a0), render(b0), render(a1), render(b1)]
  {
    var rows := [[a0, a1], [b0, b1]];
    assert Column(rows, 0, render) == [render(a0), render(b0)];
    assert Column(rows, 1, render) == [render(a1), render(b1)];
    assert RoundRobin(rows, 1, render) == [] + Column(rows, 0, render);
  }
}

=== FILE: colour.dfy ===
/** The colour value both notations describe. */
module Colour {

  /** A red, green, blue triple. The `rgb(...)` form admits any number of
      decimal digits, so components are unbounded; the hex forms give
      components in 0..255. */
  datatype Rgb = Rgb(red: nat, green: nat, blue: nat)
}

=== FILE: contrast.dfy ===
/** `getContrastingColor`: parse a colour written either as `rgb(R, G, B)` or
    as 3 or 6 hex digits, then pick black or white text for it from the
    ITU-R BT.601 luma of the colour. */
module Contrast {
  import opened Text
  import opened Outcome
  import opened Colour

  /** The default luma threshold. */
  const DefaultThreshold: real := 186.0

  const Black: string := "#000"
  const White: string := "#FFF"

  // ---------------------------------------------------------------------
  // The pattern `^rgb\(\s*(\d+)\s*,\s*(\d+)\s*,\s*(\d+)\s*\)$`
  // ---------------------------------------------------------------------

  /** One way of reading a string against the `rgb(...)` pattern: the blank
      runs around each number and the three digit runs themselves. */
  datatype RgbText = RgbText(
    beforeRed: string, red: string, afterRed: string,
    beforeGreen: string, green: string, afterGreen: string,
    beforeBlue: string, blue: string, afterBlue: string)

  predicate Blanks(s: string) {
    forall i :: 0 <= i < |s| ==> IsRegexSpace(s[i])
  }

  predicate Digits(s: string) {
    |s| > 0 && AllDecDigits(s)
  }

  /** Every run is of the kind the pattern allows there. */
  predicate Fits(t: RgbText) {
    && Blanks(t.beforeRed) && Digits(t.red) && Blanks(t.afterRed)
    && Blanks(t.beforeGreen) && Digits(t.green) && Blanks(t.afterGreen)
    && Blanks(t.beforeBlue) && Digits(t.blue) && Blanks(t.afterBlue)
  }

  /** The string a reading spells out. A string matches the pattern exactly
      when it is `Spell(t)` for some `t` that `Fits`. */
  function Spell(t: RgbText): string {
    "rgb(" + (t.beforeRed + (t.red + (t.afterRed +
    ("," + (t.beforeGreen + (t.green + (t.afterGreen +
    ("," + (t.beforeBlue + (t.blue + (t.afterBlue + ")")))))))))))
  }

  /** Split `s` after its longest prefix whose characters all satisfy `p`. */
  function SplitWhile(s: string, p: char -> bool): (r: (string, string))
    ensures r.0 + r.1 == s
    ensures forall i :: 0 <= i < |r.0| ==> p(r.0[i])
    ensures r.1 == [] || !p(r.1[0])
    decreases |s|
  {
    if s == [] || !p(s[0]) then ([], s)
    else
      var (run, rest) := SplitWhile(s[1..], p);
      var longer := [s[0]] + run;
      assert longer + rest == [s[0]] + s[1..] == s;
      assert forall i :: 1 <= i < |longer| ==> longer[i] == run[i - 1];
      (longer, rest)
  }

  /** The longest run is the only split of that shape. */
  lemma {:induction false} SplitWhileUnique(run: string, rest: string, p: char -> bool)
    requires forall i :: 0 <= i < |run| ==> p(run[i])
    requires rest == [] || !p(rest[0])
    ensures SplitWhile(run + rest, p) == (run, rest)
    decreases |run|
  {
    if run != [] {
      assert (run + rest)[1..] == run[1..] + rest;
      SplitWhileUnique(run[1..], rest, p);
      assert [run[0]] + run[1..] == run;
    } else {
      assert run + rest == rest;
    }
  }

  /** Match a string against the `rgb(...)` pattern, returning the reading. */
  function MatchRgb(s: string): (m: Option<RgbText>)
    ensures m.Some? ==> Fits(m.value) && Spell(m.value) == s
  {
    if |s| < 4 || s[..4] != "rgb(" then None
    else
      var (w1, t1) := SplitWhile(s[4..], IsRegexSpace);
      var (d1, t2) := SplitWhile(t1, IsDecDigit);
      var (w2, t3) := SplitWhile(t2, IsRegexSpace);
      if d1 == [] || t3 == [] || t3[0] != ',' then None
      else
        var (w3, t4) := SplitWhile(t3[1..], IsRegexSpace);
        var (d2, t5) := SplitWhile(t4, IsDecDigit);
        var (w4, t6) := SplitWhile(t5, IsRegexSpace);
        if d2 == [] || t6 == [] || t6[0] != ',' then None
        else
          var (w5, t7) := SplitWhile(t6[1..], IsRegexSpace);
          var (d3, t8) := SplitWhile(t7, IsDecDigit);
          var (w6, t9) := SplitWhile(t8, IsRegexSpace);
          if d3 == [] || t9 != ")" then None
          else
            assert t3 == "," + t3[1..] && t6 == "," + t6[1..];
            assert s == "rgb(" + s[4..];
            Some(RgbText(w1, d1, w2, w3, d2, w4, w5, d3, w6))
  }

  /** Reading one number of the pattern: the blanks before it, its digits and
      the blanks after it are recovered from the text that follows. */
  lemma ReadNumber(lead: string, digits: string, trail: string, rest: string)
    requires Blanks(lead) && Digits(digits) && Blanks(trail)
    requires |rest| > 0 && (rest[0] == ',' || rest[0] == ')')
    ensures SplitWhile(lead + (digits + (trail + rest)), IsRegexSpace) == (lead, digits + (trail + rest))
    ensures SplitWhile(digits + (trail + rest), IsDecDigit) == (digits, trail + rest)
    ensures SplitWhile(trail + rest, IsRegexSpace) == (trail, rest)
  {
    SplitWhileUnique(lead, digits + (trail + rest), IsRegexSpace);
    SplitWhileUnique(digits, trail + rest, IsDecDigit);
    SplitWhileUnique(trail, rest, IsRegexSpace);
  }

  /** Every string the pattern matches is matched, with the same reading. */
  lemma MatchRgbComplete(t: RgbText)
    requires Fits(t)
    ensures MatchRgb(Spell(t)) == Some(t)
  {
    var blue := t.beforeBlue + (t.blue + (t.afterBlue + ")"));
    var green := t.beforeGreen + (t.green + (t.afterGreen + ("," + blue)));
    var red := t.beforeRed + (t.red + (t.afterRed + ("," + green)));
    var s := Spell(t);
    assert s == "rgb(" + red;
    assert s[..4] == "rgb(" && s[4..] == red;
    ReadNumber(t.beforeRed, t.red, t.afterRed, "," + green);
    assert ("," + green)[1..] == green;
    ReadNumber(t.beforeGreen, t.green, t.afterGreen, "," + blue);
    assert ("," + blue)[1..] == blue;
    ReadNumber(t.beforeBlue, t.blue, t.afterBlue, ")");
  }

  /** The shortest text the pattern matches is `rgb(0,0,0)`. */
  lemma SpellLength(t: RgbText)
    requires Fits(t)
    ensures |Spell(t)| >= 10
  {
  }

  /** A string matches `^rgb\(\s*(\d+)\s*,\s*(\d+)\s*,\s*(\d+)\s*\)$`. */
  ghost predicate MatchesRgbPattern(s: string) {
    exists t :: Fits(t) && Spell(t) == s
  }

  /** `MatchRgb` succeeds exactly on the strings the pattern matches. */
  lemma MatchRgbDecides(s: string)
    ensures MatchRgb(s).Some? <==> MatchesRgbPattern(s)
  {
    if MatchesRgbPattern(s) {
      var t :| Fits(t) && Spell(t) == s;
      MatchRgbComplete(t);
    }
  }

  // ---------------------------------------------------------------------
  // The hex branch
  // ---------------------------------------------------------------------

  /** `color` with one leading `#` removed, if it has one. */
  function StripHash(color: string): (hex: string)
    ensures |color| > 0 && color[0] == '#' ==> color == "#" + hex
    ensures (|color| == 0 || color[0] != '#') ==> hex == color
  {
    if |color| > 0 && color[0] == '#' then color[1..] else color
  }

  /** The `#FFF` shorthand: each of three digits written twice. */
  function Expand(hex: string): (full: string)
    requires |hex| == 3
    ensures |full| == 6
    ensures forall i :: 0 <= i < 6 ==> full[i] == hex[i / 2]
  {
    [hex[0], hex[0], hex[1], hex[1], hex[2], hex[2]]
  }

  /** The hex branch hands `parseInt` only hex digits: whenever the body
      left after the `#` has 3 or 6 characters, they are all hex digits. */
  predicate ParsableHex(color: string) {
    |color| > 7 || (var hex := StripHash(color); (|hex| == 3 || |hex| == 6) ==> AllHexDigits(hex))
  }

  /** The colour `getContrastingColor` reads from its argument, or the
      `Invalid color` error it throws. */
  function ParseColor(color: string): (r: Result<Rgb>)
    requires ParsableHex(color)
    ensures r.Failure? <==>
      if |color| > 7 then !MatchesRgbPattern(color)
      else |StripHash(color)| != 3 && |StripHash(color)| != 6
    ensures r.Failure? ==> r.error == InvalidColor(color)
    ensures r.Success? && |color| <= 7 ==>
      r.value.red < 256 && r.value.green < 256 && r.value.blue < 256
  {
    MatchRgbDecides(color);
    if |color| > 7 then
      match MatchRgb(color)
      case None => Failure(InvalidColor(color))
      case Some(t) => Success(Rgb(ValueOf(t.red, 10), ValueOf(t.green, 10), ValueOf(t.blue, 10)))
    else
      var hex := StripHash(color);
      var full := if |hex| == 3 then Expand(hex) else hex;
      if |full| != 6 then Failure(InvalidColor(color))
      else Success(Rgb(HexByte(full[0], full[1]), HexByte(full[2], full[3]), HexByte(full[4], full[5])))
  }

  /** BT.601 luma, `0.299 R + 0.587 G + 0.114 B`, in exact arithmetic. */
  function Luma(c: Rgb): (y: real)
    ensures 1000.0 * y == (299 * c.red + 587 * c.green + 114 * c.blue) as real
    ensures 0.0 <= y
    ensures c.red < 256 && c.green < 256 && c.blue < 256 ==> y <= 255.0
  {
    c.red as real * 0.299 + c.green as real * 0.587 + c.blue as real * 0.114
  }

  /** `getContrastingColor(color, threshold)`: black text on a colour whose
      luma exceeds the threshold, white text otherwise. */
  function GetContrastingColor(color: string, threshold: real): (r: Result<string>)
    requires ParsableHex(color)
    ensures r.Failure? <==> ParseColor(color).Failure?
    ensures r.Failure? ==> r.error == InvalidColor(color)
    ensures r.Success? ==> r.value == Black || r.value == White
    ensures r.Success? ==>
      var c := ParseColor(color).value;
      (r.value == Black <==> (299 * c.red + 587 * c.green + 114 * c.blue) as real > 1000.0 * threshold)
  {
    match ParseColor(color)
    case Failure(e) => Failure(e)
    case Success(c) => Success(if Luma(c) > threshold then Black else White)
  }

  // ---------------------------------------------------------------------
  // Properties
  // ---------------------------------------------------------------------

  /** An `rgb(...)` text is read as the decimal values of its three numbers. */
  lemma ParseRgbText(t: RgbText)
    requires Fits(t)
    ensures ParsableHex(Spell(t))
    ensures ParseColor(Spell(t)) == Success(Rgb(ValueOf(t.red, 10), ValueOf(t.green, 10), ValueOf(t.blue, 10)))
  {
    SpellLength(t);
    MatchRgbComplete(t);
  }

  /** Six hex digits, with or without a leading `#`, are read pairwise. */
  lemma ParseSixDigits(hex: string, color: string)
    requires |hex| == 6 && AllHexDigits(hex)
    requires color == hex || color == "#" + hex
    ensures ParsableHex(color)
    ensures ParseColor(color) ==
      Success(Rgb(HexByte(hex[0], hex[1]), HexByte(hex[2], hex[3]), HexByte(hex[4], hex[5])))
  {
    assert StripHash(color) == hex;
  }

  /** The three-digit shorthand means the same as its doubled six-digit form,
      with or without the `#`, whatever the threshold. */
  lemma ShortHexSameAsLong(hex: string, threshold: real)
    requires |hex| == 3 && AllHexDigits(hex)
    ensures ParsableHex(hex) && ParsableHex("#" + hex)
    ensures ParsableHex(Expand(hex)) && ParsableHex("#" + Expand(hex))
    ensures GetContrastingColor(hex, threshold) == GetContrastingColor(Expand(hex), threshold)
    ensures GetContrastingColor("#" + hex, threshold) == GetContrastingColor("#" + Expand(hex), threshold)
    ensures GetContrastingColor(hex, threshold) == GetContrastingColor("#" + hex, threshold)
  {
    assert StripHash(hex) == hex;
    assert StripHash("#" + hex) == hex;
    ParseSixDigits(Expand(hex), Expand(hex));
    ParseSixDigits(Expand(hex), "#" + Expand(hex));
  }

  /** Strings of 8 or 9 characters go to the `rgb(...)` branch but are too
      short for the pattern, so they are always rejected; this covers the
      `#RRGGBBAA` notation. */
  lemma RejectsEightOrNine(color: string, threshold: real)
    requires 8 <= |color| <= 9
    ensures ParsableHex(color)
    ensures GetContrastingColor(color, threshold) == Failure(InvalidColor(color))
  {
    MatchRgbDecides(color);
  }

  /** Pure black asks for white text and pure white for black text, at the
      default threshold. */
  lemma BlackAndWhite()
    ensures ParsableHex("#000000") && ParsableHex("#FFFFFF")
    ensures GetContrastingColor("#000000", DefaultThreshold) == Success(White)
    ensures GetContrastingColor("#FFFFFF", DefaultThreshold) == Success(Black)
  {
    assert AllHexDigits("000000");
    ParseSixDigits("000000", "#000000");
    assert AllHexDigits("FFFFFF");
    ParseSixDigits("FFFFFF", "#FFFFFF");
  }

  /** `rgb(255, 255, 255)` asks for black text at the default threshold. */
  lemma RgbWhite()
    ensures ParsableHex("rgb(255, 255, 255)")
    ensures GetContrastingColor("rgb(255, 255, 255)", DefaultThreshold) == Success(Black)
  {
    var t := RgbText("", "255", "", " ", "255", "", " ", "255", "");
    assert Spell(t) == "rgb(255, 255, 255)";
    assert ValueOf("255", 10) == 255 by {
      assert "255"[..2] == "25";
      ValueOfTwo('2', '5', 10);
    }
    ParseRgbText(t);
  }

  /** `not-a-color` is rejected. */
  lemma Garbage()
    ensures ParsableHex("not-a-color")
    ensures GetContrastingColor("not-a-color", DefaultThreshold) == Failure(InvalidColor("not-a-color"))
  {
    assert "not-a-color"[..4] == "not-";
    MatchRgbDecides("not-a-color");
  }
}

=== FILE: convert.dfy ===
/** `hexToRgb` and `rgbToHex`: conversions between the `#RGB` / `#RRGGBB`
    notation and the `rgb(R, G, B)` text. */
module Convert {
  import opened Text
  import opened Colour

  /** `rgb(R, G, B)` with decimal components, as `hexToRgb` writes it. */
  function RgbString(red: nat, green: nat, blue: nat): (s: string)
    ensures |s| >= 12 && s[..4] == "rgb(" && s[|s| - 1] == ')'
  {
    "rgb(" + NumberToString(red, 10) + ", " + NumberToString(green, 10) + ", "
    + NumberToString(blue, 10) + ")"
  }

  /** Where `hexToRgb` reads digits (after the first character of a 4- or
      7-character string) they are hex digits. */
  predicate ReadableHex(h: string) {
    (|h| == 4 || |h| == 7) ==> forall i :: 1 <= i < |h| ==> IsHexDigit(h[i])
  }

  /** The components `hexToRgb` reads. The first character is skipped
      unexamined; any length but 4 or 7 reads as black. */
  function HexComponents(h: string): (c: Rgb)
    requires ReadableHex(h)
    ensures c.red < 256 && c.green < 256 && c.blue < 256
  {
    if |h| == 4 then Rgb(HexByte(h[1], h[1]), HexByte(h[2], h[2]), HexByte(h[3], h[3]))
    else if |h| == 7 then Rgb(HexByte(h[1], h[2]), HexByte(h[3], h[4]), HexByte(h[5], h[6]))
    else Rgb(0, 0, 0)
  }

  /** `hexToRgb(h)`. */
  function HexToRgb(h: string): (s: string)
    requires ReadableHex(h)
    ensures |s| >= 12 && s[..4] == "rgb(" && s[|s| - 1] == ')'
  {
    var c := HexComponents(h);
    RgbString(c.red, c.green, c.blue)
  }

  /** Two lower-case hex digits for a byte: `toString(16)` padded on the
      left with one `0` when it has a single digit. */
  function PaddedHex(v: nat): (s: string)
    requires v < 256
    ensures s == [LowerDigit(v / 16), LowerDigit(v % 16)]
    ensures IsLowerHexDigit(s[0]) && IsLowerHexDigit(s[1])
    ensures IsHexDigit(s[0]) && IsHexDigit(s[1]) && HexByte(s[0], s[1]) == v
  {
    var digits := NumberToString(v, 16);
    NumberToStringWidth(v, 16);
    if |digits| == 1 then "0" + digits else digits
  }

  /** `#` followed by three two-character strings, character by character. */
  lemma HashAndPairs(r: string, g: string, b: string)
    requires |r| == 2 && |g| == 2 && |b| == 2
    ensures "#" + r + g + b == ['#', r[0], r[1], g[0], g[1], b[0], b[1]]
  {
  }

  /** `rgbToHex(red, green, blue)` on components in 0..255: `#` and six
      lower-case hex digits, two per component, high digit first. */
  function RgbToHex(red: nat, green: nat, blue: nat): (s: string)
    requires red < 256 && green < 256 && blue < 256
    ensures |s| == 7 && s[0] == '#'
    ensures forall i :: 1 <= i < 7 ==> IsLowerHexDigit(s[i]) && IsHexDigit(s[i])
    ensures HexByte(s[1], s[2]) == red && HexByte(s[3], s[4]) == green && HexByte(s[5], s[6]) == blue
  {
    var r, g, b := PaddedHex(red), PaddedHex(green), PaddedHex(blue);
    HashAndPairs(r, g, b);
    var s := "#" + r + g + b;
    SevenDigits(s, r, g, b);
    s
  }

  /** The digit facts of the three pairs carry over to the whole text. */
  lemma SevenDigits(s: string, r: string, g: string, b: string)
    requires |r| == 2 && |g| == 2 && |b| == 2
    requires s == ['#', r[0], r[1], g[0], g[1], b[0], b[1]]
    requires IsLowerHexDigit(r[0]) && IsLowerHexDigit(r[1])
    requires IsLowerHexDigit(g[0]) && IsLowerHexDigit(g[1])
    requires IsLowerHexDigit(b[0]) && IsLowerHexDigit(b[1])
    ensures forall i :: 1 <= i < 7 ==> IsLowerHexDigit(s[i]) && IsHexDigit(s[i])
  {
    forall i | 1 <= i < 7
      ensures IsLowerHexDigit(s[i]) && IsHexDigit(s[i])
    {
      if i == 1 { assert s[i] == r[0]; }
      else if i == 2 { assert s[i] == r[1]; }
      else if i == 3 { assert s[i] == g[0]; }
      else if i == 4 { assert s[i] == g[1]; }
      else if i == 5 { assert s[i] == b[0]; }
      else { assert s[i] == b[1]; }
    }
  }

  /** A four-character `#RGB` reads the same as its doubled `#RRGGBB` form;
      the first character is never looked at. */
  lemma HexToRgbShortForm(h: string)
    requires |h| == 4 && ReadableHex(h)
    ensures ReadableHex([h[0], h[1], h[1], h[2], h[2], h[3], h[3]])
    ensures HexToRgb(h) == HexToRgb([h[0], h[1], h[1], h[2], h[2], h[3], h[3]])
  {
    var long := [h[0], h[1], h[1], h[2], h[2], h[3], h[3]];
    assert HexComponents(h) == HexComponents(long);
  }

  /** Any other length silently reads as black, without an error. */
  lemma HexToRgbFallback(h: string)
    requires |h| != 4 && |h| != 7
    ensures HexToRgb(h) == "rgb(0, 0, 0)"
  {
  }

  /** `hexToRgb` inverts `rgbToHex`. */
  lemma {:induction false} HexToRgbOfRgbToHex(red: nat, green: nat, blue: nat)
    requires red < 256 && green < 256 && blue < 256
    ensures ReadableHex(RgbToHex(red, green, blue))
    ensures HexComponents(RgbToHex(red, green, blue)) == Rgb(red, green, blue)
    ensures HexToRgb(RgbToHex(red, green, blue)) == RgbString(red, green, blue)
  {
    var s := RgbToHex(red, green, blue);
    assert forall i :: 0 <= i < 6 ==> s[1..][i] == s[i + 1];
  }

  /** Printing a byte read from two hex digits gives the digits back,
      in lower case. */
  lemma PaddedHexOfDigits(hi: char, lo: char)
    requires IsHexDigit(hi) && IsHexDigit(lo)
    ensures PaddedHex(HexByte(hi, lo)) == [LowerChar(hi), LowerChar(lo)]
  {
    CaseKeepsDigitValue(hi);
    CaseKeepsDigitValue(lo);
    var v := HexByte(hi, lo);
    assert v / 16 == DigitValue(hi) && v % 16 == DigitValue(lo);
  }

  /** The seven characters `rgbToHex` writes, one by one. */
  lemma RgbToHexCharacters(red: nat, green: nat, blue: nat)
    requires red < 256 && green < 256 && blue < 256
    ensures var r, g, b := PaddedHex(red), PaddedHex(green), PaddedHex(blue);
      RgbToHex(red, green, blue) == ['#', r[0], r[1], g[0], g[1], b[0], b[1]]
  {
    HashAndPairs(PaddedHex(red), PaddedHex(green), PaddedHex(blue));
  }

  lemma LowerSeven(h: string)
    requires |h| == 7
    ensures LowerString(h) == [LowerChar(h[0]), LowerChar(h[1]), LowerChar(h[2]),
      LowerChar(h[3]), LowerChar(h[4]), LowerChar(h[5]), LowerChar(h[6])]
  {
  }

  /** `rgbToHex` inverts `hexToRgb` on `#RRGGBB`, up to letter case. */
  lemma RgbToHexOfHexComponents(h: string)
    requires |h| == 7 && h[0] == '#' && ReadableHex(h)
    ensures var c := HexComponents(h); RgbToHex(c.red, c.green, c.blue) == LowerString(h)
  {
    var c := HexComponents(h);
    PaddedHexOfDigits(h[1], h[2]);
    PaddedHexOfDigits(h[3], h[4]);
    PaddedHexOfDigits(h[5], h[6]);
    RgbToHexCharacters(c.red, c.green, c.blue);
    LowerSeven(h);
  }

  /** `#abc` and `#aabbcc` both read as `rgb(170, 187, 204)`. */
  lemma HexToRgbExamples()
    ensures ReadableHex("#abc") && ReadableHex("#aabbcc")
    ensures HexToRgb("#abc") == "rgb(170, 187, 204)"
    ensures HexToRgb("#aabbcc") == "rgb(170, 187, 204)"
  {
    var long := "#aabbcc";
    assert long[1] == 'a' && long[2] == 'a' && long[3] == 'b' && long[4] == 'b' && long[5] == 'c' && long[6] == 'c';
    assert ReadableHex(long);
    assert HexComponents(long) == Rgb(170, 187, 204);
    RgbStringExample();
    var short := "#abc";
    assert short[1] == 'a' && short[2] == 'b' && short[3] == 'c';
    HexToRgbShortForm(short);
    assert [short[0], short[1], short[1], short[2], short[2], short[3], short[3]] == long;
  }

  lemma RgbStringExample()
    ensures RgbString(170, 187, 204) == "rgb(170, 187, 204)"
  {
    DecimalExamples();
  }

  lemma DecimalExamples()
    ensures NumberToString(170, 10) == "170"
    ensures NumberToString(187, 10) == "187"
    ensures NumberToString(204, 10) == "204"
  {
    assert NumberToString(17, 10) == "17";
    assert NumberToString(18, 10) == "18";
    assert NumberToString(20, 10) == "20";
  }

  /** Black and white print as `#000000` and `#ffffff`. */
  lemma RgbToHexExamples()
    ensures RgbToHex(0, 0, 0) == "#000000"
    ensures RgbToHex(255, 255, 255) == "#ffffff"
  {
    assert PaddedHex(0) == "00";
    assert PaddedHex(255) == "ff" by {
      assert LowerDigit(15) == 'f';
    }
  }
}

=== FILE: outcome.dfy ===
/** The two ways the colour helpers can throw, and the result of a helper
    that may throw. */
module Outcome {

  /** `getContrastingColor` rejects a colour string it cannot parse;
      `addAlpha` rejects an opacity outside the closed unit interval. Each
      error carries the offending value, as the thrown message does. */
  datatype ColorError =
    | InvalidColor(color: string)
    | InvalidOpacity(opacity: real)

  datatype Option<+T> = None | Some(value: T)

  datatype Result<+T> = Success(value: T) | Failure(error: ColorError)
}

=== FILE: roundtrips.dfy ===
/** How the converters and the contrast picker fit together: the text
    `hexToRgb` writes is matched by the `rgb(...)` pattern, `rgbToHex` and
    `hexToRgb` undo each other, and both notations of a colour get the same
    contrasting text colour. */
module RoundTrips {
  import opened Text
  import opened Outcome
  import opened Contrast
  import opened Convert
  import opened Colour

  /** `RgbString` read against the `rgb(...)` pattern: no blanks around the
      numbers except one space after each comma. */
  function RgbStringReading(red: nat, green: nat, blue: nat): RgbText {
    RgbText("", NumberToString(red, 10), "", " ", NumberToString(green, 10), "",
            " ", NumberToString(blue, 10), "")
  }

  /** `NumberToString(n, 10)` is a run of decimal digits. */
  lemma DecimalIsDigits(n: nat)
    ensures Digits(NumberToString(n, 10))
  {
    var s := NumberToString(n, 10);
    forall i | 0 <= i < |s| ensures IsDecDigit(s[i]) {
      assert DigitValue(s[i]) < 10;
    }
  }

  /** The text `hexToRgb` writes matches the `rgb(...)` pattern, and
      `getContrastingColor` reads its numbers back. */
  lemma RgbStringParses(red: nat, green: nat, blue: nat)
    ensures Fits(RgbStringReading(red, green, blue))
    ensures Spell(RgbStringReading(red, green, blue)) == RgbString(red, green, blue)
    ensures ParsableHex(RgbString(red, green, blue))
    ensures ParseColor(RgbString(red, green, blue)) == Success(Rgb(red, green, blue))
  {
    DecimalIsDigits(red);
    DecimalIsDigits(green);
    DecimalIsDigits(blue);
    var t := RgbStringReading(red, green, blue);
    ReadingSpellsRgbString(red, green, blue);
    ParseRgbText(t);
  }

  /** Writing out the reading gives back exactly the text `hexToRgb` writes. */
  lemma ReadingSpellsRgbString(red: nat, green: nat, blue: nat)
    ensures Spell(RgbStringReading(red, green, blue)) == RgbString(red, green, blue)
  {
    SpellWithCommaSpaces(NumberToString(red, 10), NumberToString(green, 10), NumberToString(blue, 10));
  }

  /** No blanks except one space after each comma spells `rgb(r, g, b)`. */
  lemma SpellWithCommaSpaces(r: string, g: string, b: string)
    ensures Spell(RgbText("", r, "", " ", g, "", " ", b, "")) == "rgb(" + r + ", " + g + ", " + b + ")"
  {
    assert "," + (" " + (g + ("" + ("," + (" " + (b + ("" + ")")))))))
      == ", " + g + ", " + b + ")";
  }

  /** For any input with hex digits where `hexToRgb` reads them, its output
      parses as an `rgb(...)` colour whose components all lie in 0..255. */
  lemma HexToRgbInRange(h: string)
    requires ReadableHex(h)
    ensures ParsableHex(HexToRgb(h))
    ensures ParseColor(HexToRgb(h)).Success?
    ensures var c := ParseColor(HexToRgb(h)).value; c.red < 256 && c.green < 256 && c.blue < 256
  {
    var c := HexComponents(h);
    RgbStringParses(c.red, c.green, c.blue);
  }

  /** Round trip through the text: parse what `hexToRgb` writes for
      `#RRGGBB` and print it with `rgbToHex`; the result is the input with
      its letters in lower case. */
  lemma HexRoundTrip(h: string)
    requires |h| == 7 && h[0] == '#' && ReadableHex(h)
    ensures ParsableHex(HexToRgb(h)) && ParseColor(HexToRgb(h)).Success?
    ensures var c := ParseColor(HexToRgb(h)).value;
      && c.red < 256 && c.green < 256 && c.blue < 256
      && RgbToHex(c.red, c.green, c.blue) == LowerString(h)
  {
    var c := HexComponents(h);
    RgbStringParses(c.red, c.green, c.blue);
    RgbToHexOfHexComponents(h);
  }

  /** Round trip the other way: print components with `rgbToHex`, convert
      with `hexToRgb` and parse; the components come back. */
  lemma RgbRoundTrip(red: nat, green: nat, blue: nat)
    requires red < 256 && green < 256 && blue < 256
    ensures ReadableHex(RgbToHex(red, green, blue))
    ensures ParsableHex(HexToRgb(RgbToHex(red, green, blue)))
    ensures ParseColor(HexToRgb(RgbToHex(red, green, blue))) == Success(Rgb(red, green, blue))
  {
    HexToRgbOfRgbToHex(red, green, blue);
    RgbStringParses(red, green, blue);
  }

  /** A `#RRGGBB` colour and its `rgb(R, G, B)` text get the same contrasting
      colour at every threshold. */
  lemma ContrastAgreesAcrossNotations(h: string, threshold: real)
    requires |h| == 7 && h[0] == '#' && ReadableHex(h)
    ensures ParsableHex(h) && ParsableHex(HexToRgb(h))
    ensures GetContrastingColor(HexToRgb(h), threshold) == GetContrastingColor(h, threshold)
  {
    var hex := h[1..];
    assert h == "#" + hex;
    ParseSixDigits(hex, h);
    var c := HexComponents(h);
    RgbStringParses(c.red, c.green, c.blue);
  }
}

=== FILE: text.dfy ===
/** Character classes and number/text conversions that the colour helpers
    rely on: the digits and blanks of a JavaScript regular expression,
    `parseInt` on digit strings, `Number.prototype.toString(radix)` on
    non-negative integers, and ASCII case mapping. */
module Text {

  /** `\d` of a JavaScript regular expression without the `u` flag. */
  predicate IsDecDigit(c: char) {
    '0' <= c <= '9'
  }

  predicate IsHexDigit(c: char) {
    IsDecDigit(c) || 'a' <= c <= 'f' || 'A' <= c <= 'F'
  }

  predicate IsLowerHexDigit(c: char) {
    IsDecDigit(c) || 'a' <= c <= 'f'
  }

  predicate IsUpperHexDigit(c: char) {
    IsDecDigit(c) || 'A' <= c <= 'F'
  }

  /** `\s` of a JavaScript regular expression: the ECMAScript WhiteSpace and
      LineTerminator code points. */
  predicate IsRegexSpace(c: char) {
    || c == '\t' || c == '\n' || c == '\U{000B}' || c == '\U{000C}' || c == '\r'
    || c == ' ' || c == '\U{00A0}' || c == '\U{1680}'
    || ('\U{2000}' <= c <= '\U{200A}')
    || c == '\U{2028}' || c == '\U{2029}' || c == '\U{202F}' || c == '\U{205F}'
    || c == '\U{3000}' || c == '\U{FEFF}'
  }

  predicate AllDecDigits(s: string) {
    forall i :: 0 <= i < |s| ==> IsDecDigit(s[i])
  }

  predicate AllHexDigits(s: string) {
    forall i :: 0 <= i < |s| ==> IsHexDigit(s[i])
  }

  /** Value of one digit; upper and lower case letters are the same digit. */
  function DigitValue(c: char): (v: nat)
    requires IsHexDigit(c)
    ensures v < 16
    ensures v < 10 <==> IsDecDigit(c)
  {
    if IsDecDigit(c) then c as int - '0' as int
    else if 'a' <= c <= 'f' then c as int - 'a' as int + 10
    else c as int - 'A' as int + 10
  }

  /** The digit `toString(radix)` writes for `d`: lower-case letters. */
  function LowerDigit(d: nat): (c: char)
    requires d < 16
    ensures IsLowerHexDigit(c) && DigitValue(c) == d
  {
    if d < 10 then ('0' as int + d) as char else ('a' as int + d - 10) as char
  }

  function UpperDigit(d: nat): (c: char)
    requires d < 16
    ensures IsUpperHexDigit(c) && DigitValue(c) == d
  {
    if d < 10 then ('0' as int + d) as char else ('A' as int + d - 10) as char
  }

  /** `toUpperCase` on the ASCII range, which is all it ever sees here. */
  function UpperChar(c: char): char {
    if 'a' <= c <= 'z' then (c as int - 32) as char else c
  }

  function LowerChar(c: char): char {
    if 'A' <= c <= 'Z' then (c as int + 32) as char else c
  }

  function UpperString(s: string): (u: string)
    ensures |u| == |s|
    ensures forall i :: 0 <= i < |s| ==> u[i] == UpperChar(s[i])
  {
    seq(|s|, i requires 0 <= i < |s| => UpperChar(s[i]))
  }

  function LowerString(s: string): (u: string)
    ensures |u| == |s|
    ensures forall i :: 0 <= i < |s| ==> u[i] == LowerChar(s[i])
  {
    seq(|s|, i requires 0 <= i < |s| => LowerChar(s[i]))
  }

  /** Case mapping keeps a hex digit a hex digit of the same value. */
  lemma CaseKeepsDigitValue(c: char)
    requires IsHexDigit(c)
    ensures IsUpperHexDigit(UpperChar(c)) && DigitValue(UpperChar(c)) == DigitValue(c)
    ensures IsLowerHexDigit(LowerChar(c)) && DigitValue(LowerChar(c)) == DigitValue(c)
    ensures LowerDigit(DigitValue(c)) == LowerChar(c)
    ensures UpperDigit(DigitValue(c)) == UpperChar(c)
  {
  }

  /** `parseInt(s, base)` on a string of hex digits. Every caller passes
      digits below `base`; on a larger digit the value is not what
      `parseInt` returns. */
  function ValueOf(s: string, base: nat): nat
    requires AllHexDigits(s)
    decreases |s|
  {
    if |s| == 0 then 0 else ValueOf(s[..|s| - 1], base) * base + DigitValue(s[|s| - 1])
  }

  /** `n.toString(base)` for a non-negative integer `n`: lower-case digits,
      no leading zeros, and `parseInt` reads `n` back from it. */
  function NumberToString(n: nat, base: nat): (s: string)
    requires 2 <= base <= 16
    ensures 1 <= |s|
    ensures forall i :: 0 <= i < |s| ==> IsLowerHexDigit(s[i]) && DigitValue(s[i]) < base
    ensures |s| == 1 <==> n < base
    ensures |s| > 1 ==> s[0] != '0'
    ensures AllHexDigits(s) && ValueOf(s, base) == n
    decreases n
  {
    if n < base then [LowerDigit(n)]
    else
      var q := n / base;
      DivideStep(n, base);
      var front := NumberToString(q, base);
      var s := front + [LowerDigit(n % base)];
      assert s[..|s| - 1] == front;
      assert ValueOf(s, base) == ValueOf(front, base) * base + n % base;
      s
  }

  lemma DivideStep(n: nat, base: nat)
    requires 2 <= base <= n
    ensures 1 <= n / base < n
    ensures (n / base) * base + n % base == n
  {
  }

  /** A two-digit rendering: numbers below `base * base` need at most two digits. */
  lemma NumberToStringWidth(n: nat, base: nat)
    requires 2 <= base <= 16
    requires n < base * base
    ensures |NumberToString(n, base)| <= 2
    ensures base <= n ==> NumberToString(n, base) == [LowerDigit(n / base), LowerDigit(n % base)]
  {
    if base <= n {
      assert n / base < base;
    }
  }

  /** `parseInt` on a two-digit string. */
  lemma ValueOfTwo(a: char, b: char, base: nat)
    requires IsHexDigit(a) && IsHexDigit(b)
    ensures ValueOf([a, b], base) == DigitValue(a) * base + DigitValue(b)
  {
    assert [a, b][..1] == [a];
    assert [a][..0] == [];
    assert ValueOf([a], base) == DigitValue(a);
  }

  /** `parseInt` of two hex digits, and `Number` of `0x` followed by them. */
  function HexByte(hi: char, lo: char): (v: nat)
    requires IsHexDigit(hi) && IsHexDigit(lo)
    ensures v < 256
    ensures v == 16 * DigitValue(hi) + DigitValue(lo)
  {
    ValueOfTwo(hi, lo, 16);
    ValueOf([hi, lo], 16)
  }

}
